=== FILE: README.md ===
# Keybox and command dispatch of the stratos magstripe firmware

This project models the control logic in `main.c` of the stratos firmware. The device stores up to 255 magnetic-stripe
data items in flash. It emits one of them through the magstripe, under commands from a client on the SPI bus.
The model covers two parts that share the Keybox state.

* **The Keybox** (module `Keybox`). This is the index allocator. It keeps 255 "in use" flags, a `uint8_t` in-use
  counter, an active flag and an active key. `Allocate` (and the loop-based `GetKey`) hands out the lowest free
  slot. `GiveUp` frees a slot. `Activate` and `Deactivate` set and clear the active key. `IsFull` models
  `Keybox_is_empty`, which despite its name is true when every slot is taken. `ActiveKey` and `KeyInUse` are the
  two getters.
* **The dispatch step** (module `Dispatch`). This is one pass through the `switch` on the command byte. The results
  of `flash_retrieve`, `flash_store`, `flash_erase` and `swipe_enable` are inputs, gathered in a `World`. Every bus
  and collaborator call is recorded, in order, in a trace of `Call`s. `Writes` extracts the reply frames from that
  trace. `Handle` is the `switch` itself, and `Step` is the tag read followed by `Handle`.
  The implemented commands are `SET_KEY_ACTIVE`, `STORE_1` and `ERASE_KEY`. The empty `STORE_2` … `STORE_123`
  and `STORE_ARB` cases do nothing and write no reply. Any other tag is the `default: assert(0)` case.
* **The bus vocabulary** (module `Protocol`). It holds the host and client command bytes, the reply frames with a
  decoder that reads them back, and the client-ID decode, `rx[0] + (rx[1] << 8)` compared with `0x1234`.
* **The main loop** (module `SessionLoop`). It models the start-up identity check and the inner
  `while (spi_write(tx_buff, 1))` loop (`Serve`). It also models one iteration of the outer loop (`Iterate`) and a
  run of iterations (`Run`). The timer-driven `poll_client` flag and the client's answers are inputs.
  * The inner loop puts `ASK_FOR_CMD` into `tx_buff[0]` once, before its first pass.
  * Each reply overwrites `tx_buff[0]`, so later passes re-send the previous reply code as the prompt (see Findings).
  * `Serve` carries that byte from pass to pass.

Failed `assert`s come in two kinds, handled differently:

* Asserts inside the Keybox functions (`main.c:54`, `70-71`, `79-80`, `92`) become preconditions. They are
  obligations of the Keybox's caller.
* Asserts on what the client sends become an explicit `Crash` outcome of the dispatch step. These are the
  sanity checks on the received key (`main.c:196`, `main.c:291`) and the `default` case (`main.c:319`). The model
  thus stays total and says exactly which inputs stop the firmware.

Integer widths are written out:

* the counter and keys are `uint8_t` values (`Bytes.Byte`);
* `Keybox_num_in_use` is decremented modulo 256;
* the `size_t` byte count from `flash_retrieve` is truncated to `uint8_t` before it reaches `swipe_enable`.

`main` never calls `Keybox_init`. The firmware starts from zero-initialised globals, which is `Keybox.Boot`, and
`Keybox.BootIsInitialised` shows that this equals the initialised state. `Keybox_init` does not reset
`Keybox_active_key`, and neither does the model.

In these places the model follows the code, where a client might expect otherwise:

* A client key that is not in use, and an unknown tag, stop the firmware. They are not answered with a failure reply.
* `STORE_1` reads a fixed 128-byte block. It does not read a length-prefixed payload.
* No per-key size is recorded. `SET_KEY_ACTIVE` passes whatever byte count `flash_retrieve` reports.
* A failed `STORE_1` keeps the key it took (see Findings).
* `ERASE_KEY` compares the key with the stored active key even when the active flag is clear. At boot that stored
  key is 0, so the first erase of key 0 disables the magstripe although nothing is active (`swipe.h` says
  `swipe_disable` then has no effect). This is observed behaviour, shown by `Dispatch.EraseChecksStaleActiveKey`.
* `Keybox_get_active_key` keeps returning the last activated key after `Keybox_deactivate`
  (`Keybox.ActiveKeySurvivesDeactivate`).

## Model

| member | source | states |
|---|---|---|
| `Keybox.CountUpdate` | main.c:57-73 | setting or clearing one flag moves the number of set flags by exactly one, or not at all when the flag already had that value; this is why `++`/`--` on the counter keeps it equal to the flag count |
| `Keybox.CountFull` | main.c:43-46 | the number of set flags equals the number of slots exactly when every flag is set |
| `Keybox.CountEmpty` | main.c:36-39 | the number of set flags is zero exactly when every flag is clear |
| `Keybox.Boot` | main.c:27-30 | the zero-initialised globals: every slot free, counter 0 and in step, active flag clear, stored active key 0 |
| `Keybox.Init` | main.c:33-41 | after `Keybox_init` all 255 slots are free, the counter is 0 and in step with the flags, no key is active, and the stored active key is unchanged |
| `Keybox.BootIsInitialised` | main.c:27-41 | the zero-initialised globals are already an initialised Keybox, so `main` skipping `Keybox_init` is harmless |
| `Keybox.IsFull` | main.c:43-46 | `Keybox_is_empty` is true exactly when no free slot exists, provided the counter is in step with the flags |
| `Keybox.FirstFree` | main.c:57-64 | the scan stops at the lowest clear flag: every earlier flag is set and the one it stops at is clear, or it runs off the end only when all are set |
| `Keybox.Allocate` | main.c:48-66 | when not full, the key returned is the lowest free slot, a defined index below 255; only that flag becomes set, the counter rises by one and stays in step, and the active state is unchanged |
| `Keybox.GetKey` | main.c:48-66 | the firmware's linear scan returns the lowest free slot and the same Keybox as `Allocate` |
| `Keybox.GiveUp` | main.c:68-75 | the given-up key becomes free, every other flag and the active flag and key are unchanged, and the counter drops by one and stays in step |
| `Keybox.Activate` | main.c:77-83 | a key in use becomes the active key with the active flag set; the flags and counter are unchanged, and the active key names a slot in use |
| `Keybox.Deactivate` | main.c:96-99 | only the active flag is cleared; the stored active key, flags and counter are unchanged |
| `Keybox.ActiveKeySurvivesDeactivate` | main.c:85-99 | after activating `k` and deactivating, `Keybox_get_active_key` still returns `k` while the flag is clear |
| `Keybox.AllocateThenGiveUp` | main.c:48-75 | giving back the key just allocated restores the Keybox exactly |
| `Keybox.GiveUpThenAllocate` | main.c:57-73 | a freed key with every lower key in use is the next key handed out, and taking it restores the Keybox |
| `Bytes.ToByte` | main.c:198 | converting a `size_t` count to `uint8_t` keeps values below 256 and otherwise agrees with the count modulo 256 |
| `Protocol.DecodeCommand` | main.c:121-132 | which `switch` case a command byte selects: `0x00`, `0x01` and `0x08` the three implemented commands, `0x02`-`0x07` and `0x09` the empty cases, every byte above `0x09` the `default` case |
| `Protocol.DecodeCommandRoundTrip` | main.c:121-132 | every command byte decodes to a command whose tag is that byte again |
| `Protocol.CommandTagRoundTrip` | main.c:121-132 | every well-tagged command is recovered from its tag byte |
| `Protocol.Encode` | main.c:104-113 | a reply frame is two bytes for `STORE_SUCCESS` (code then key) and one byte otherwise |
| `Protocol.DecodeEncode` | main.c:104-113 | every reply frame the firmware writes reads back as the same reply |
| `Protocol.EncodeDecode` | main.c:104-113 | any frame that reads as a reply is exactly that reply's encoding |
| `Protocol.ReplyCodeIsNotAsk` | main.c:104-113 | every reply frame starts with one of the reply codes `STORE_SUCCESS` … `ERASE_FAIL`, never with `ASK_FOR_CMD` |
| `Protocol.DecodeClientId` | main.c:160 | the identifier is a 16-bit value whose low byte is `rx[0]` and high byte is `rx[1]` |
| `Protocol.ClientIdMatches` | main.c:160-161 | verification succeeds exactly when the bytes read are `0x34` then `0x12` |
| `Protocol.DecodeClientIdInjective` | main.c:160 | two byte pairs decode to the same identifier exactly when they are the same pair |
| `Dispatch.HandleSetKeyActive` | main.c:192-206 | crashes exactly when the key is not in use, right after reading it; the Keybox changes only if `swipe_enable` succeeded, and then the key becomes active; the single reply is `ACTIVATE_SUCCESS` exactly when it succeeded, else `ACTIVATE_FAIL`; the flash is read, and read before the magstripe gets the truncated byte count; the reply is the last call; no other flash or magstripe call is made; the invariants are kept |
| `Dispatch.HandleStore1` | main.c:208-226 | when full: no key taken, no flash store, single `STORE_FAIL` reply; otherwise the lowest free key is taken and stored to, and the reply is `STORE_SUCCESS` plus that key when the store succeeded, `STORE_FAIL` when it did not (the key stays taken); no flash or magstripe call other than a store to that key is made |
| `Dispatch.HandleStore1Releasing` | main.c:214-219 | corrected store: a `STORE_FAIL` reply always leaves the Keybox as it was; a successful store behaves as the firmware's |
| `Dispatch.HandleEraseKey` | main.c:287-305 | crashes exactly when the key is not in use, right after reading it; the magstripe is disabled exactly when the key equals the stored active key, and always before the flash erase; the key is freed exactly when the erase succeeded, other slots unchanged; the active flag is cleared exactly for the active key; single reply `ERASE_SUCCESS` exactly on success, else `ERASE_FAIL`; no other flash or magstripe call is made |
| `Dispatch.SetKeyActiveCallsOnce` | main.c:192-206 | the key is read before anything else; a command that carries on reads once, calls `flash_retrieve` once and `swipe_enable` once |
| `Dispatch.Store1CallsOnce` | main.c:208-226 | the 128-byte block is read first and exactly once on every path; when the Keybox is not full, `flash_store` is called exactly once, at the allocated key |
| `Dispatch.EraseKeyCallsOnce` | main.c:287-305 | the key is read before anything else; a command that carries on reads once, calls `flash_erase` once, and calls `swipe_disable` once when the key is the stored active key and never otherwise |
| `Dispatch.Handle` | main.c:191-321 | crashes exactly on an unknown tag or a key not in use for `SET_KEY_ACTIVE`/`ERASE_KEY`; the empty cases change nothing and call nothing; an implemented command that carries on ends with its single reply, which is a well-formed frame, and writes nothing before it; the invariants are preserved |
| `Dispatch.Step` | main.c:186-321 | the command byte is read first; it crashes exactly on an unknown tag or a key not in use for `SET_KEY_ACTIVE`/`ERASE_KEY`; the empty cases change nothing and reply nothing; every implemented command writes exactly one well-formed reply; the counter and active-key invariants are preserved |
| `Dispatch.StoreFailureLeaksKey` | main.c:214-225 | from boot, a `STORE_1` whose flash write fails replies `STORE_FAIL` yet leaves slot 0 in use and counted; the corrected handler leaves the Keybox untouched |
| `Dispatch.EraseChecksStaleActiveKey` | main.c:293-296 | at boot, storing then erasing key 0 disables the magstripe although no key was ever active |
| `Dispatch.ErasedSlotIsReused` | main.c:208-305 | storing twice yields keys 0 and 1; after erasing key 0, the next store returns key 0 again |
| `SessionLoop.IdentityExchange` | main.c:157-159 | the identity exchange writes only `VERIFY_CLIENT_ID` and touches neither flash nor magstripe |
| `SessionLoop.Start` | main.c:154-169 | start-up uses the zero-initialised Keybox, performs the identity exchange on the bus, and is verified exactly when the identifier read equals `0x1234` |
| `SessionLoop.TxAfter` | main.c:204-303 | `tx_buff[0]` after a command is the first byte of the reply when the command ends with a reply, and unchanged otherwise; when that last write is a reply frame, the byte is a reply code between `STORE_SUCCESS` and `ERASE_FAIL`, never `ASK_FOR_CMD` |
| `SessionLoop.PromptAfterStep` | main.c:182-305 | after a command that replied, the next prompt is that reply's code and never `ASK_FOR_CMD`; after an empty case it is unchanged |
| `SessionLoop.Serve` | main.c:181-323 | the first pass prompts with the `tx_buff[0]` it is given; dispatching commands while the client has them preserves the counter and active-key invariants |
| `SessionLoop.ReplyBecomesNextPrompt` | main.c:182-205 | after a command that replied, the next prompt is that reply's first byte and not `ASK_FOR_CMD`; with a second command pending, some command is read after a prompt other than `ASK_FOR_CMD` |
| `SessionLoop.ServeAsking` | main.c:181-183 | corrected loop: every prompt that precedes a command read is `ASK_FOR_CMD`, the first write is `ASK_FOR_CMD`, and the invariants are preserved |
| `SessionLoop.AskingDispatchesAsServe` | main.c:181-321 | the corrected loop and the firmware's loop, whatever byte the latter prompts with, crash on the same batches, end with the same Keybox, and make the same calls in the same order, differing only in one-byte prompt writes |
| `SessionLoop.ServeKbIgnoresTx` | main.c:182-183 | the byte left in `tx_buff[0]` never changes whether the firmware's loop crashes or the Keybox it ends with |
| `SessionLoop.Iterate` | main.c:172-347 | unverified: only the identity exchange happens, the Keybox is untouched, and it becomes verified exactly on `0x34 0x12`; verified and polled: the first write is `ASK_FOR_CMD`, and it crashes, ends with the Keybox and makes the calls of the firmware's inner loop started from `ASK_FOR_CMD`; verified and not polled: nothing happens; verification is never lost; invariants are kept |
| `SessionLoop.Run` | main.c:172-349 | any number of loop iterations preserves the counter and active-key invariants |
| `SessionLoop.UnverifiedNeverDispatches` | main.c:325-343 | while every identifier presented is wrong, no command is dispatched: the session and Keybox stay as they were and neither flash nor magstripe is called |

## Left out

- `spi.c` is a scripted test stub. Its command bytes disagree with `main.c` (it sends `ERASE_KEY` as `0x02`), and it is not part of this model. `flash.h`, `spi.h` and `swipe.h` only declare interfaces. Their results are inputs (`Dispatch.World`, `SessionLoop.Tick`), and their calls are recorded as `Dispatch.Call`s.
- The contents of the 128-byte `buffer` and the bytes copied through it are not modelled. `STORE_1` records a flash store of 128 bytes at the key. `SET_KEY_ACTIVE` records the retrieve and the byte count handed to the magstripe.
- The number of bytes `spi_read` actually delivers is not modelled. Each read is recorded with the length requested, and the byte read is taken as given.
- `printf` debugging, the `volatile` qualifier and the `rand()` simulation of the poll timer are left out. The poll flag is an input of each loop iteration. The outer loop never ends, so a `Run` models a finite prefix of it.
- `SessionLoop.Serve`: states the first prompt and the invariants it preserves, not the full trace; the prompts of later passes are stated by `SessionLoop.ReplyBecomesNextPrompt`.
- `SessionLoop.Run`: states only the invariants it preserves; the behaviour of each iteration is stated by `SessionLoop.Iterate`.
- `Protocol.Encode`: states only the frame length; the byte values are pinned down by the `Protocol.DecodeEncode` and `Protocol.EncodeDecode` pair.
- `Keybox.ActiveKey` and `Keybox.KeyInUse` are plain getters without contracts. Their behaviour shows in `Keybox.ActiveKeySurvivesDeactivate` and in the crash conditions of the dispatch handlers.

## Findings

The dispatch step (`Dispatch.Step`) and the loop (`SessionLoop.Serve`, used by `SessionLoop.Iterate`) keep the code as written, because they model the firmware. The corrected members state the intended behaviour beside them.

| source | as written | input that shows it | evidently intended | confidence | as-written member | corrected member |
|---|---|---|---|---|---|---|
| main.c:214-219 | when `flash_store` fails, the key taken by `Keybox_get_key` stays marked in use and counted, and the `STORE_FAIL` reply names no key; the client is not told which key was taken, so the slot stays in use unless the client works out which key it was and erases it | `STORE_1` at boot with `flash_store` returning false: reply `STORE_FAIL`, slot 0 in use, counter 1 | give the key back with `Keybox_giveup_key` when the store fails, so a failed store leaves the Keybox unchanged | not executed; high | `Dispatch.HandleStore1` (exhibited by `Dispatch.StoreFailureLeaksKey`) | `Dispatch.HandleStore1Releasing` |
| main.c:182-183 | `tx_buff[0] = ASK_FOR_CMD` is set once before the loop; the loop condition re-sends `tx_buff`, but each handler writes its reply code into `tx_buff[0]` (main.c:204, 219, 303), so every pass after a replied command prompts with that reply code | a poll with two `STORE_1` commands from boot: the prompt before the second command is `0x02` (`STORE_SUCCESS`), not `0x01` | set `tx_buff[0] = ASK_FOR_CMD` inside the loop, so every pass asks for a command | not executed; high | `SessionLoop.Serve` (exhibited by `SessionLoop.ReplyBecomesNextPrompt`) | `SessionLoop.ServeAsking` (dispatches as `Serve` does: `SessionLoop.AskingDispatchesAsServe`) |

=== FILE: bytes.dfy ===
/** Fixed-width integers the firmware uses, written out explicitly. */
module Bytes {

  /** An unsigned 8-bit value (`uint8_t`). */
  type Byte = b: int | 0 <= b < 0x100

  /** Truncation of a wider unsigned value to `uint8_t`, as a C conversion does. */
  function ToByte(n: nat): (b: Byte)
    ensures n < 0x100 ==> b == n
    ensures (n - b) % 0x100 == 0
  {
    n % 0x100
  }
}

=== FILE: dispatch.dfy ===
/**
 One pass of the command `switch` in the firmware's main loop: read a
 command tag from the bus, act on the Keybox and the collaborators, write the
 reply. Collaborator results are inputs (a `World`), and every collaborator or
 bus call made is recorded, in order, in a trace of `Call`s.
 */
module Dispatch {
  import opened Bytes
  import opened Keybox
  import opened Protocol

  /** Size of the firmware's transfer buffer; `STORE_1` always reads and stores this many bytes. */
  const BufferSize: nat := 128

  /** What the bus and the collaborators answer while one command is handled. */
  datatype World = World(
    tag: Byte,        // the command byte read from the bus
    keyByte: Byte,    // the key byte read for SET_KEY_ACTIVE and ERASE_KEY
    retrieved: nat,   // flash_retrieve's byte count
    enabled: bool,    // swipe_enable's answer
    stored: bool,     // flash_store's answer
    erased: bool)     // flash_erase's answer

  /** A call to the bus or a collaborator, with the arguments that matter. */
  datatype Call =
    | BusRead(length: nat)
    | BusWrite(bytes: seq<Byte>)
    | FlashRetrieve(key: Key, capacity: nat)
    | FlashStore(key: Key, length: nat)
    | FlashErase(key: Key)
    | SwipeEnable(size: Byte)
    | SwipeDisable

  /**
   The end of handling a command: either the loop carries on with a new
   Keybox, or a failed `assert` stopped the firmware.
   */
  datatype Outcome =
    | Continue(kb: State, calls: seq<Call>)
    | Crash(calls: seq<Call>)

  /** The frames written to the bus, in order. */
  function Writes(calls: seq<Call>): seq<seq<Byte>>
  {
    if |calls| == 0 then []
    else (if calls[0].BusWrite? then [calls[0].bytes] else []) + Writes(calls[1..])
  }

  lemma {:induction false} WritesAppend(a: seq<Call>, b: seq<Call>)
    ensures Writes(a + b) == Writes(a) + Writes(b)
  {
    if |a| > 0 {
      assert (a + b)[1..] == a[1..] + b;
      WritesAppend(a[1..], b);
    } else {
      assert a + b == b;
    }
  }

  /** A trace of reads and device calls followed by one bus write shows exactly that write. */
  lemma {:induction false} WritesLast(prefix: seq<Call>, bytes: seq<Byte>)
    requires forall i :: 0 <= i < |prefix| ==> !prefix[i].BusWrite?
    ensures Writes(prefix + [BusWrite(bytes)]) == [bytes]
  {
    if |prefix| > 0 {
      assert (prefix + [BusWrite(bytes)])[1..] == prefix[1..] + [BusWrite(bytes)];
      WritesLast(prefix[1..], bytes);
    } else {
      assert prefix + [BusWrite(bytes)] == [BusWrite(bytes)];
    }
  }

  /** Every occurrence of `first` in the trace comes before every occurrence of `second`. */
  predicate Before(calls: seq<Call>, first: Call, second: Call)
  {
    forall i, j :: 0 <= i < |calls| && 0 <= j < |calls| && calls[i] == first && calls[j] == second ==> i < j
  }

  /** Only the last call of a trace may be a bus write: a command sends its reply last. */
  predicate WritesOnlyLast(calls: seq<Call>)
  {
    forall i :: 0 <= i < |calls| - 1 ==> !calls[i].BusWrite?
  }

  /** Reading the command tag first adds no write and keeps the reply last. */
  lemma ReadThen(c: seq<Call>)
    requires WritesOnlyLast(c)
    ensures WritesOnlyLast([BusRead(1)] + c)
    ensures Writes([BusRead(1)] + c) == Writes(c)
    ensures |c| > 0 ==> ([BusRead(1)] + c)[|c|] == c[|c| - 1]
  {
    var t := [BusRead(1)] + c;
    assert t[1..] == c;
    assert forall i :: 1 <= i < |t| ==> t[i] == c[i - 1];
  }

  /** Neither the flash nor the magstripe is touched. */
  predicate NoDeviceCalls(calls: seq<Call>)
  {
    forall i :: 0 <= i < |calls| ==> calls[i].BusRead? || calls[i].BusWrite?
  }

  /**
   `SET_KEY_ACTIVE`: read a key; crash unless it is in use; fetch its data,
   hand it to the magstripe, and mark the key active only if the magstripe
   accepted it. The byte count from flash is truncated to `uint8_t`.
   */
  function HandleSetKeyActive(kb: State, w: World): (o: Outcome)
    ensures o.Crash? <==> !(w.keyByte < MaxStripeData && kb.status[w.keyByte])
    ensures o.Continue? ==>
              Writes(o.calls) == [Encode(if w.enabled then ActivateSucceeded else ActivateFailed)]
    ensures o.Continue? && !w.enabled ==> o.kb == kb
    ensures o.Continue? && w.enabled ==>
              o.kb.dataActive && o.kb.activeKey == w.keyByte
              && o.kb.status == kb.status && o.kb.numInUse == kb.numInUse
    ensures o.Continue? ==>
              FlashRetrieve(w.keyByte, BufferSize) in o.calls && SwipeEnable(ToByte(w.retrieved)) in o.calls
    ensures forall c :: c in o.calls ==>
              || c.BusRead? || c.BusWrite?
              || c == FlashRetrieve(w.keyByte, BufferSize) || c == SwipeEnable(ToByte(w.retrieved))
    ensures o.Continue? ==>
              Before(o.calls, FlashRetrieve(w.keyByte, BufferSize), SwipeEnable(ToByte(w.retrieved)))
    ensures WritesOnlyLast(o.calls) && |o.calls| > 0
    ensures o.Continue? ==>
              var reply := if w.enabled then ActivateSucceeded else ActivateFailed;
              o.calls[|o.calls| - 1] == BusWrite(Encode(reply))
    ensures o.Crash? ==> o.calls == [BusRead(1)]
    ensures o.Continue? ==> (Valid(kb) ==> Valid(o.kb)) && (ActiveInUse(kb) ==> ActiveInUse(o.kb))
  {
    var key := w.keyByte;
    var read := [BusRead(1)];
    if !(key < MaxStripeData) || !KeyInUse(kb, key) then Crash(read)
    else
      var size := ToByte(w.retrieved);
      var next := if w.enabled then Activate(kb, key) else kb;
      var reply := if w.enabled then ActivateSucceeded else ActivateFailed;
      var calls := read + [FlashRetrieve(key, BufferSize), SwipeEnable(size)] + [BusWrite(Encode(reply))];
      assert Writes(calls) == [Encode(reply)] by {
        WritesLast(read + [FlashRetrieve(key, BufferSize), SwipeEnable(size)], Encode(reply));
      }
      Continue(next, calls)
  }

  /**
   `STORE_1`: read a 128-byte block; when the Keybox is full, reply
   `STORE_FAIL` without taking a key or calling the flash. Otherwise take the
   lowest free key and store the block there; reply `STORE_SUCCESS` and the
   key when the flash accepted it, `STORE_FAIL` when it did not. In the
   latter case the key stays taken (see `StoreFailureLeaksKey`).
   */
  function HandleStore1(kb: State, w: World): (o: Outcome)
    requires Valid(kb)
    ensures o.Continue? && Valid(o.kb)
    ensures ActiveInUse(kb) ==> ActiveInUse(o.kb)
    ensures IsFull(kb) ==>
              o.kb == kb && Writes(o.calls) == [Encode(StoreFailed)]
              && forall i :: 0 <= i < |o.calls| ==> !o.calls[i].FlashStore?
    ensures !IsFull(kb) ==>
              var (key, taken) := Allocate(kb);
              && o.kb == taken
              && FlashStore(key, BufferSize) in o.calls
              && Writes(o.calls) == [Encode(if w.stored then StoreSucceeded(key) else StoreFailed)]
    ensures WritesOnlyLast(o.calls) && |o.calls| > 0 && o.calls[|o.calls| - 1].BusWrite?
    ensures forall c :: c in o.calls ==>
              c.BusRead? || c.BusWrite? || (!IsFull(kb) && c == FlashStore(Allocate(kb).0, BufferSize))
    ensures o.calls[|o.calls| - 1].bytes == Writes(o.calls)[0]
    ensures Decode(o.calls[|o.calls| - 1].bytes).Some?
  {
    var read := [BusRead(BufferSize)];
    if IsFull(kb) then
      var calls := read + [BusWrite(Encode(StoreFailed))];
      assert Writes(calls) == [Encode(StoreFailed)] by { WritesLast(read, Encode(StoreFailed)); }
      Continue(kb, calls)
    else
      var (key, taken) := Allocate(kb);
      var reply := if w.stored then StoreSucceeded(key) else StoreFailed;
      DecodeEncode(reply);
      var calls := read + [FlashStore(key, BufferSize)] + [BusWrite(Encode(reply))];
      assert Writes(calls) == [Encode(reply)] by {
        WritesLast(read + [FlashStore(key, BufferSize)], Encode(reply));
      }
      Continue(taken, calls)
  }

  /**
   The `STORE_1` the protocol intends: a key whose flash write failed is
   given back, so a failed store leaves the Keybox as it was.
   */
  function HandleStore1Releasing(kb: State, w: World): (o: Outcome)
    requires Valid(kb)
    ensures o.Continue? && Valid(o.kb)
    ensures ActiveInUse(kb) ==> ActiveInUse(o.kb)
    ensures Writes(o.calls) == [Encode(StoreFailed)] ==> o.kb == kb
    ensures !IsFull(kb) && w.stored ==> o == HandleStore1(kb, w)
    ensures IsFull(kb) || w.stored || o.kb == kb
    ensures o.calls == HandleStore1(kb, w).calls
  {
    var first := HandleStore1(kb, w);
    if !IsFull(kb) && !w.stored then
      var (key, taken) := Allocate(kb);
      AllocateThenGiveUp(kb);
      Continue(GiveUp(taken, key), first.calls)
    else first
  }

  /**
   `ERASE_KEY`: read a key; crash unless it is in use. When it equals the
   stored active key, disable the magstripe and clear the active flag first;
   then erase the flash slot, and give the key up only if the erase succeeded.
   The comparison is with the stored active key, whether or not the active
   flag is set.
   */
  function HandleEraseKey(kb: State, w: World): (o: Outcome)
    ensures o.Crash? <==> !(w.keyByte < MaxStripeData && kb.status[w.keyByte])
    ensures o.Continue? ==>
              Writes(o.calls) == [Encode(if w.erased then EraseSucceeded else EraseFailed)]
    ensures o.Continue? ==> (SwipeDisable in o.calls <==> kb.activeKey == w.keyByte)
    ensures o.Continue? ==>
              FlashErase(w.keyByte) in o.calls && Before(o.calls, SwipeDisable, FlashErase(w.keyByte))
    ensures forall c :: c in o.calls ==>
              c.BusRead? || c.BusWrite? || c == SwipeDisable || c == FlashErase(w.keyByte)
    ensures o.Continue? ==> o.kb.status[w.keyByte] == !w.erased
    ensures o.Continue? ==>
              forall j :: 0 <= j < MaxStripeData && j != w.keyByte ==> o.kb.status[j] == kb.status[j]
    ensures o.Continue? ==> o.kb.activeKey == kb.activeKey
    ensures o.Continue? ==> (o.kb.dataActive <==> kb.dataActive && kb.activeKey != w.keyByte)
    ensures o.Continue? ==> (Valid(kb) ==> Valid(o.kb)) && (ActiveInUse(kb) ==> ActiveInUse(o.kb))
    ensures WritesOnlyLast(o.calls) && |o.calls| > 0
    ensures o.Continue? ==>
              o.calls[|o.calls| - 1] == BusWrite(Encode(if w.erased then EraseSucceeded else EraseFailed))
    ensures o.Crash? ==> o.calls == [BusRead(1)]
  {
    var key := w.keyByte;
    var read := [BusRead(1)];
    if !(key < MaxStripeData) || !KeyInUse(kb, key) then Crash(read)
    else
      var hit := ActiveKey(kb) == key;
      var quiet := if hit then Deactivate(kb) else kb;
      var off := if hit then [SwipeDisable] else [];
      var next := if w.erased then GiveUp(quiet, key) else quiet;
      var reply := if w.erased then EraseSucceeded else EraseFailed;
      var calls := read + off + [FlashErase(key)] + [BusWrite(Encode(reply))];
      assert Writes(calls) == [Encode(reply)] by {
        WritesLast(read + off + [FlashErase(key)], Encode(reply));
      }
      Continue(next, calls)
  }

  /**
   `SET_KEY_ACTIVE` reads the key before anything else; when it carries on,
   it reads once, fetches the data once and hands it to the magstripe once.
   */
  lemma SetKeyActiveCallsOnce(kb: State, w: World)
    ensures HandleSetKeyActive(kb, w).calls[0] == BusRead(1)
    ensures HandleSetKeyActive(kb, w).Continue? ==>
              var m := multiset(HandleSetKeyActive(kb, w).calls);
              && m[BusRead(1)] == 1
              && m[FlashRetrieve(w.keyByte, BufferSize)] == 1
              && m[SwipeEnable(ToByte(w.retrieved))] == 1
  {
  }

  /**
   `STORE_1` reads the 128-byte block before anything else, on every path,
   and stores it at most once: exactly once when the Keybox is not full.
   */
  lemma Store1CallsOnce(kb: State, w: World)
    requires Valid(kb)
    ensures HandleStore1(kb, w).calls[0] == BusRead(BufferSize)
    ensures multiset(HandleStore1(kb, w).calls)[BusRead(BufferSize)] == 1
    ensures !IsFull(kb) ==> multiset(HandleStore1(kb, w).calls)[FlashStore(Allocate(kb).0, BufferSize)] == 1
  {
  }

  /**
   `ERASE_KEY` reads the key before anything else; when it carries on, it
   reads once, erases the flash slot once, and disables the magstripe once
   when the key is the stored active key and never otherwise.
   */
  lemma EraseKeyCallsOnce(kb: State, w: World)
    ensures HandleEraseKey(kb, w).calls[0] == BusRead(1)
    ensures HandleEraseKey(kb, w).Continue? ==>
              var m := multiset(HandleEraseKey(kb, w).calls);
              && m[BusRead(1)] == 1
              && m[FlashErase(w.keyByte)] == 1
              && m[SwipeDisable] == (if kb.activeKey == w.keyByte then 1 else 0)
  {
  }

  /**
   The `switch` on a command tag already read: run its case. The `STORE_2` ..
   `STORE_123` and `STORE_ARB` cases do nothing and write no reply; any other
   unknown tag hits `assert(0)`.
   */
  function Handle(kb: State, w: World): (o: Outcome)
    requires Valid(kb)
    ensures o.Crash? <==>
              || DecodeCommand(w.tag).Unknown?
              || ((DecodeCommand(w.tag).SetKeyActive? || DecodeCommand(w.tag).EraseKey?)
                  && !(w.keyByte < MaxStripeData && kb.status[w.keyByte]))
    ensures o.Continue? ==> Valid(o.kb) && (ActiveInUse(kb) ==> ActiveInUse(o.kb))
    ensures DecodeCommand(w.tag).Unimplemented? ==> o == Continue(kb, [])
    ensures WritesOnlyLast(o.calls)
    ensures o.Crash? ==> Writes(o.calls) == [] && (|o.calls| == 0 || !o.calls[|o.calls| - 1].BusWrite?)
    ensures o.Continue? && !DecodeCommand(w.tag).Unimplemented? ==>
              && |o.calls| > 0 && o.calls[|o.calls| - 1].BusWrite?
              && Writes(o.calls) == [o.calls[|o.calls| - 1].bytes]
              && Decode(o.calls[|o.calls| - 1].bytes).Some?
  {
    match DecodeCommand(w.tag)
    case SetKeyActive =>
      DecodeEncode(if w.enabled then ActivateSucceeded else ActivateFailed);
      HandleSetKeyActive(kb, w)
    case Store1 => HandleStore1(kb, w)
    case EraseKey =>
      DecodeEncode(if w.erased then EraseSucceeded else EraseFailed);
      HandleEraseKey(kb, w)
    case Unimplemented(_) => Continue(kb, [])
    case Unknown(_) => Crash([])
  }

  /**
   One iteration of the dispatch loop body: read the command tag from the bus,
   then run its case.
   */
  function Step(kb: State, w: World): (o: Outcome)
    requires Valid(kb)
    ensures |o.calls| > 0 && o.calls[0] == BusRead(1)
    ensures o.Crash? <==>
              || DecodeCommand(w.tag).Unknown?
              || ((DecodeCommand(w.tag).SetKeyActive? || DecodeCommand(w.tag).EraseKey?)
                  && !(w.keyByte < MaxStripeData && kb.status[w.keyByte]))
    ensures o.Continue? ==> Valid(o.kb) && (ActiveInUse(kb) ==> ActiveInUse(o.kb))
    ensures DecodeCommand(w.tag).Unimplemented? ==> o.Continue? && o.kb == kb && Writes(o.calls) == []
    ensures o.Continue? && !DecodeCommand(w.tag).Unimplemented? ==>
              |Writes(o.calls)| == 1 && Decode(Writes(o.calls)[0]).Some?
    ensures WritesOnlyLast(o.calls)
    ensures o.Crash? || DecodeCommand(w.tag).Unimplemented? ==> !o.calls[|o.calls| - 1].BusWrite?
    ensures o.Continue? && !DecodeCommand(w.tag).Unimplemented? ==>
              o.calls[|o.calls| - 1].BusWrite? && o.calls[|o.calls| - 1].bytes == Writes(o.calls)[0]
  {
    var handled := Handle(kb, w);
    ReadThen(handled.calls);
    handled.(calls := [BusRead(1)] + handled.calls)
  }

  /**
   A failed flash write on `STORE_1` still consumes a key: from the boot
   state, the reply is `STORE_FAIL`, yet slot 0 is now in use and counted,
   and the reply does not tell the client which key was taken, so the slot
   stays in use unless the client works out which key it was and erases it.
   The intended handler gives the key back.
   */
  lemma StoreFailureLeaksKey(w: World)
    requires w.tag == Store1Tag && !w.stored
    ensures Valid(Boot())
    ensures Step(Boot(), w).Continue?
    ensures Writes(Step(Boot(), w).calls) == [Encode(StoreFailed)]
    ensures Step(Boot(), w).kb.status[0] && Step(Boot(), w).kb.numInUse == 1
    ensures HandleStore1Releasing(Boot(), w).kb == Boot()
  {
    BootIsInitialised();
    var o := Step(Boot(), w);
    assert Allocate(Boot()).0 == 0;
    assert Writes(o.calls) == Writes([BusRead(1)] + HandleStore1(Boot(), w).calls) by {
      WritesAppend([BusRead(1)], HandleStore1(Boot(), w).calls);
    }
  }

  /**
   `ERASE_KEY` compares the key with the stored active key without looking at
   the active flag. At boot that stored key is 0, so erasing the first stored
   key disables the magstripe although nothing was ever activated.
   */
  lemma EraseChecksStaleActiveKey(store: World, erase: World)
    requires store.tag == Store1Tag && store.stored
    requires erase.tag == EraseKeyTag && erase.keyByte == 0
    ensures Valid(Boot())
    ensures Step(Boot(), store).Continue? && !Step(Boot(), store).kb.dataActive
    ensures Step(Step(Boot(), store).kb, erase).Continue?
    ensures SwipeDisable in Step(Step(Boot(), store).kb, erase).calls
  {
    BootIsInitialised();
    assert Allocate(Boot()).0 == 0;
    var kb := Step(Boot(), store).kb;
    assert kb.status[0];
    assert HandleEraseKey(kb, erase).Continue?;
    assert SwipeDisable in HandleEraseKey(kb, erase).calls;
  }

  /**
   A freed slot is handed out again: store twice (keys 0 and 1), erase key 0,
   store again and get key 0 back.
   */
  lemma ErasedSlotIsReused(store: World, erase: World)
    requires store.tag == Store1Tag && store.stored
    requires erase.tag == EraseKeyTag && erase.keyByte == 0 && erase.erased
    ensures Valid(Boot())
    ensures
      var kb1 := Step(Boot(), store).kb;
      var kb2 := Step(kb1, store).kb;
      var kb3 := Step(kb2, erase).kb;
      var last := Step(kb3, store);
      && Writes(Step(kb1, store).calls) == [[StoreSuccess, 1]]
      && Step(kb2, erase).Continue? && !kb3.status[0] && kb3.status[1]
      && Writes(last.calls) == [[StoreSuccess, 0]]
  {
    BootIsInitialised();
    assert Allocate(Boot()).0 == 0;
    var kb1 := Step(Boot(), store).kb;
    assert Allocate(kb1).0 == 1 by { assert kb1.status[0] && !kb1.status[1]; }
    var kb2 := Step(kb1, store).kb;
    WritesAppend([BusRead(1)], HandleStore1(kb1, store).calls);
    assert kb2.status[0] && kb2.status[1];
    var kb3 := Step(kb2, erase).kb;
    assert !kb3.status[0];
    assert Allocate(kb3).0 == 0;
    WritesAppend([BusRead(1)], HandleStore1(kb3, store).calls);
  }
}

=== FILE: keybox.dfy ===
/**
 The Keybox: bookkeeping of which flash slots ("keys") hold stored stripe
 data, how many are in use, and which one the magstripe is emitting.

 The firmware keeps this in globals (`Keybox_key_status`, `Keybox_num_in_use`,
 `Keybox_data_active`, `Keybox_active_key`); here it is one immutable value
 and every operation returns the next value.
 */
module Keybox {
  import opened Bytes

  /** Number of slots the Keybox tracks (`MAX_STRIPE_DATA`). */
  const MaxStripeData: nat := 255

  /** A key is a slot index of type `uint8_t`; only keys below `MaxStripeData` name slots. */
  type Key = Byte

  /** The in-use flag array: exactly one flag per slot. */
  type Flags = s: seq<bool> | |s| == MaxStripeData witness seq(MaxStripeData, _ => false)

  datatype State = State(status: Flags, dataActive: bool, activeKey: Key, numInUse: Byte)

  /** Number of flags that are set. */
  function CountInUse(s: seq<bool>): (n: nat)
    ensures n <= |s|
  {
    if |s| == 0 then 0 else (if s[0] then 1 else 0) + CountInUse(s[1..])
  }

  /** The counter agrees with the flags. */
  predicate Valid(kb: State)
  {
    kb.numInUse == CountInUse(kb.status)
  }

  /** When the active flag is set, the active key names a slot in use. */
  predicate ActiveInUse(kb: State)
  {
    kb.dataActive ==> kb.activeKey < MaxStripeData && kb.status[kb.activeKey]
  }

  /** Setting one flag changes the count by the difference of the old and new flag. */
  lemma {:induction false} CountUpdate(s: seq<bool>, i: nat, b: bool)
    requires i < |s|
    ensures CountInUse(s[i := b]) == CountInUse(s) - (if s[i] then 1 else 0) + (if b then 1 else 0)
  {
    if i == 0 {
      assert s[i := b][1..] == s[1..];
    } else {
      assert s[i := b][1..] == s[1..][i - 1 := b];
      CountUpdate(s[1..], i - 1, b);
    }
  }

  /** The count reaches the length exactly when every flag is set. */
  lemma {:induction false} CountFull(s: seq<bool>)
    ensures CountInUse(s) == |s| <==> forall i :: 0 <= i < |s| ==> s[i]
  {
    if |s| > 0 {
      CountFull(s[1..]);
      assert forall i :: 1 <= i < |s| ==> s[i] == s[1..][i - 1];
    }
  }

  /** The count is zero exactly when no flag is set. */
  lemma {:induction false} CountEmpty(s: seq<bool>)
    ensures CountInUse(s) == 0 <==> forall i :: 0 <= i < |s| ==> !s[i]
  {
    if |s| > 0 {
      CountEmpty(s[1..]);
      assert forall i :: 1 <= i < |s| ==> s[i] == s[1..][i - 1];
    }
  }

  /**
   The state the firmware starts in. `main` never calls `Keybox_init`; the
   globals are zero-initialised static storage, so every flag is clear, the
   counter is 0, no data is active and the active key is 0.
   */
  function Boot(): (r: State)
    ensures Valid(r) && ActiveInUse(r)
    ensures forall k :: 0 <= k < MaxStripeData ==> !r.status[k]
    ensures r.numInUse == 0 && !r.dataActive && r.activeKey == 0
  {
    var flags: Flags := seq(MaxStripeData, _ => false);
    CountEmpty(flags);
    State(flags, false, 0, 0)
  }

  /**
   `Keybox_init`: clears every flag, the counter and the active flag. It does
   not touch the active key, which keeps whatever value it had.
   */
  function Init(kb: State): (r: State)
    ensures Valid(r) && ActiveInUse(r)
    ensures forall k :: 0 <= k < MaxStripeData ==> !r.status[k]
    ensures r.numInUse == 0 && !r.dataActive
    ensures r.activeKey == kb.activeKey
  {
    var flags: Flags := seq(MaxStripeData, _ => false);
    CountEmpty(flags);
    State(flags, false, kb.activeKey, 0)
  }

  /** Resetting the boot state leaves it as it is: skipping `Keybox_init` is harmless at start-up. */
  lemma BootIsInitialised()
    ensures Init(Boot()) == Boot()
    ensures Valid(Boot()) && ActiveInUse(Boot())
  {
    assert Init(Boot()).status == Boot().status;
  }

  /**
   `Keybox_is_empty`, which despite its name answers whether the Keybox is
   FULL: the counter has reached `MaxStripeData`.
   */
  function IsFull(kb: State): (full: bool)
    ensures Valid(kb) ==> (full <==> forall k :: 0 <= k < MaxStripeData ==> kb.status[k])
  {
    CountFull(kb.status);
    kb.numInUse == MaxStripeData
  }

  /** Index of the lowest clear flag, or `|s|` when every flag is set. */
  function FirstFree(s: seq<bool>): (i: nat)
    ensures i <= |s|
    ensures forall j :: 0 <= j < i ==> s[j]
    ensures i < |s| ==> !s[i]
  {
    if |s| == 0 || !s[0] then 0 else 1 + FirstFree(s[1..])
  }

  /**
   `Keybox_get_key`: takes the lowest free slot, marks it in use and counts it.
   Callers must know the Keybox is not full; with the counter in step with the
   flags, that guarantees a free slot, so the returned key is always defined.
   */
  function Allocate(kb: State): (r: (Key, State))
    requires Valid(kb) && !IsFull(kb)
    ensures r.0 < MaxStripeData && !kb.status[r.0] && r.1.status[r.0]
    ensures forall j :: 0 <= j < r.0 ==> kb.status[j]
    ensures forall j :: 0 <= j < MaxStripeData && j != r.0 ==> r.1.status[j] == kb.status[j]
    ensures r.1.numInUse == kb.numInUse + 1
    ensures r.1.dataActive == kb.dataActive && r.1.activeKey == kb.activeKey
    ensures Valid(r.1)
  {
    var key := FirstFree(kb.status);
    CountUpdate(kb.status, key, true);
    (key, kb.(status := kb.status[key := true], numInUse := kb.numInUse + 1))
  }

  /**
   The linear scan of `Keybox_get_key`, written as the firmware writes it: walk
   the flags from slot 0 and stop at the first clear one.
   */
  method GetKey(kb: State) returns (key: Key, next: State)
    requires Valid(kb) && !IsFull(kb)
    ensures key < MaxStripeData && !kb.status[key]
    ensures forall j :: 0 <= j < key ==> kb.status[j]
    ensures next.status == kb.status[key := true] && next.numInUse == kb.numInUse + 1
    ensures next.dataActive == kb.dataActive && next.activeKey == kb.activeKey
    ensures (key, next) == Allocate(kb)
  {
    ghost var free := FirstFree(kb.status);
    var i := 0;
    while i < MaxStripeData && kb.status[i]
      invariant 0 <= i <= free
      invariant forall j :: 0 <= j < i ==> kb.status[j]
    {
      i := i + 1;
    }
    key := i;
    next := kb.(status := kb.status[key := true], numInUse := kb.numInUse + 1);
  }

  /**
   `Keybox_giveup_key`: clears the flag of a key in use and decrements the
   `uint8_t` counter (wrapping, as C does, though a valid Keybox never wraps).
   The active flag and active key are left alone.
   */
  function GiveUp(kb: State, key: Key): (r: State)
    requires key < MaxStripeData && kb.status[key]
    ensures !r.status[key]
    ensures forall j :: 0 <= j < MaxStripeData && j != key ==> r.status[j] == kb.status[j]
    ensures r.dataActive == kb.dataActive && r.activeKey == kb.activeKey
    ensures Valid(kb) ==> Valid(r) && r.numInUse == kb.numInUse - 1
  {
    CountUpdate(kb.status, key, false);
    kb.(status := kb.status[key := false], numInUse := ToByte(kb.numInUse + 0xFF))
  }

  /** `Keybox_activate_key`: a key in use becomes the single active key. */
  function Activate(kb: State, key: Key): (r: State)
    requires key < MaxStripeData && kb.status[key]
    ensures r.dataActive && r.activeKey == key
    ensures ActiveInUse(r)
    ensures r.status == kb.status && r.numInUse == kb.numInUse
  {
    kb.(activeKey := key, dataActive := true)
  }

  /** `Keybox_get_active_key`: the stored active key, whether or not the active flag is set. */
  function ActiveKey(kb: State): Key
  {
    kb.activeKey
  }

  /** `Keybox_key_in_use`. */
  function KeyInUse(kb: State, key: Key): bool
    requires key < MaxStripeData
  {
    kb.status[key]
  }

  /** `Keybox_deactivate`: clears only the active flag; the active key keeps its value. */
  function Deactivate(kb: State): (r: State)
    ensures !r.dataActive && ActiveInUse(r)
    ensures r.activeKey == kb.activeKey && r.status == kb.status && r.numInUse == kb.numInUse
  {
    kb.(dataActive := false)
  }

  /** Giving a key back right after taking it restores the Keybox exactly. */
  lemma AllocateThenGiveUp(kb: State)
    requires Valid(kb) && !IsFull(kb)
    ensures GiveUp(Allocate(kb).1, Allocate(kb).0) == kb
  {
    var (key, next) := Allocate(kb);
    assert GiveUp(next, key).status == kb.status;
  }

  /**
   After a key is given up, allocation hands it out again when every lower
   key is still in use: the lowest-free tie-break.
   */
  lemma GiveUpThenAllocate(kb: State, key: Key)
    requires Valid(kb) && key < MaxStripeData && kb.status[key]
    requires forall j :: 0 <= j < key ==> kb.status[j]
    ensures !IsFull(GiveUp(kb, key))
    ensures Allocate(GiveUp(kb, key)) == (key, kb)
  {
    var freed := GiveUp(kb, key);
    var (k, again) := Allocate(freed);
    assert k == key;
    assert again.status == kb.status;
  }

  /** Deactivating keeps reporting the last activated key. */
  lemma ActiveKeySurvivesDeactivate(kb: State, key: Key)
    requires key < MaxStripeData && kb.status[key]
    ensures ActiveKey(Deactivate(Activate(kb, key))) == key
    ensures !Deactivate(Activate(kb, key)).dataActive
  {
  }
}

=== FILE: protocol.dfy ===
/**
 The bytes exchanged on the SPI bus: the host's messages to the client
 (`HostSPIcmds`), the client's command tags (`ClientSPIcmds`), the replies
 the dispatcher writes, and the client-identity check.
 */
module Protocol {
  import opened Bytes

  datatype Option<T> = None | Some(value: T)

  // Bytes the host (this firmware) writes.
  const VerifyClientId: Byte := 0x00
  const AskForCmd: Byte := 0x01
  const StoreSuccess: Byte := 0x02
  const StoreFail: Byte := 0x03
  const ActivateSuccess: Byte := 0x04
  const ActivateFail: Byte := 0x05
  const EraseSuccess: Byte := 0x06
  const EraseFail: Byte := 0x07

  // Command tags the client sends.
  const SetKeyActiveTag: Byte := 0x00
  const Store1Tag: Byte := 0x01
  const EraseKeyTag: Byte := 0x08

  /** The identifier the client must present (`CLIENT_ID`). */
  const ClientId: nat := 0x1234

  /** A decoded command tag. */
  datatype Command =
    | SetKeyActive
    | Store1
    | EraseKey
      /** `STORE_2` .. `STORE_123` and `STORE_ARB`: cases with no code. */
    | Unimplemented(tag: Byte)
      /** Any other tag: the `default` case. */
    | Unknown(tag: Byte)

  /** Tags whose case exists in the switch but does nothing. */
  predicate IsUnimplementedTag(b: Byte)
  {
    0x02 <= b <= 0x07 || b == 0x09
  }

  /** The `switch` labels: which case a command byte selects. */
  function DecodeCommand(b: Byte): (c: Command)
    ensures c.SetKeyActive? <==> b == SetKeyActiveTag
    ensures c.Store1? <==> b == Store1Tag
    ensures c.EraseKey? <==> b == EraseKeyTag
    ensures c.Unimplemented? <==> IsUnimplementedTag(b)
    ensures c.Unknown? <==> b > 0x09
    ensures c.Unimplemented? || c.Unknown? ==> c.tag == b
  {
    if b == SetKeyActiveTag then SetKeyActive
    else if b == Store1Tag then Store1
    else if b == EraseKeyTag then EraseKey
    else if IsUnimplementedTag(b) then Unimplemented(b)
    else Unknown(b)
  }

  function CommandTag(c: Command): Byte
  {
    match c
    case SetKeyActive => SetKeyActiveTag
    case Store1 => Store1Tag
    case EraseKey => EraseKeyTag
    case Unimplemented(t) => t
    case Unknown(t) => t
  }

  /** A command whose carried tag agrees with its variant. */
  predicate WellTagged(c: Command)
  {
    match c
    case Unimplemented(t) => IsUnimplementedTag(t)
    case Unknown(t) => t > 0x09
    case _ => true
  }

  /** Every tag byte decodes to a well-tagged command that encodes back to the same byte. */
  lemma DecodeCommandRoundTrip(b: Byte)
    ensures WellTagged(DecodeCommand(b))
    ensures CommandTag(DecodeCommand(b)) == b
  {
  }

  /** Every well-tagged command is recovered from its tag byte. */
  lemma CommandTagRoundTrip(c: Command)
    requires WellTagged(c)
    ensures DecodeCommand(CommandTag(c)) == c
  {
  }

  /** What the dispatcher writes back after a command. */
  datatype Response =
    | StoreSucceeded(key: Byte)
    | StoreFailed
    | ActivateSucceeded
    | ActivateFailed
    | EraseSucceeded
    | EraseFailed

  /** The `tx_buff` bytes written for a response. */
  function Encode(r: Response): (bytes: seq<Byte>)
    ensures |bytes| == (if r.StoreSucceeded? then 2 else 1)
  {
    match r
    case StoreSucceeded(key) => [StoreSuccess, key]
    case StoreFailed => [StoreFail]
    case ActivateSucceeded => [ActivateSuccess]
    case ActivateFailed => [ActivateFail]
    case EraseSucceeded => [EraseSuccess]
    case EraseFailed => [EraseFail]
  }

  /** How the client reads a reply frame. */
  function Decode(bytes: seq<Byte>): Option<Response>
  {
    if |bytes| == 2 && bytes[0] == StoreSuccess then Some(StoreSucceeded(bytes[1]))
    else if |bytes| != 1 then None
    else if bytes[0] == StoreFail then Some(StoreFailed)
    else if bytes[0] == ActivateSuccess then Some(ActivateSucceeded)
    else if bytes[0] == ActivateFail then Some(ActivateFailed)
    else if bytes[0] == EraseSuccess then Some(EraseSucceeded)
    else if bytes[0] == EraseFail then Some(EraseFailed)
    else None
  }

  /** Every reply is read back as itself. */
  lemma DecodeEncode(r: Response)
    ensures Decode(Encode(r)) == Some(r)
  {
  }

  /** A frame that reads as a reply is exactly that reply's encoding. */
  lemma EncodeDecode(bytes: seq<Byte>)
    ensures Decode(bytes).Some? ==> Encode(Decode(bytes).value) == bytes
  {
  }

  /** Every reply frame starts with a reply code, never with `ASK_FOR_CMD`. */
  lemma ReplyCodeIsNotAsk(bytes: seq<Byte>)
    requires Decode(bytes).Some?
    ensures |bytes| > 0 && StoreSuccess <= bytes[0] <= EraseFail && bytes[0] != AskForCmd
  {
  }

  /**
   The identifier read from the bus: `rx[0] + ((uint16_t) rx[1] << 8)`. The
   shift is done after promotion to `int`, so nothing is lost.
   */
  function DecodeClientId(lo: Byte, hi: Byte): (id: nat)
    ensures id < 0x1_0000
    ensures id % 0x100 == lo && id / 0x100 == hi
  {
    lo + hi * 0x100
  }

  /** Verification succeeds exactly when the low byte is 0x34 and the high byte 0x12. */
  function ClientIdMatches(lo: Byte, hi: Byte): (ok: bool)
    ensures ok <==> lo == 0x34 && hi == 0x12
  {
    DecodeClientId(lo, hi) == ClientId
  }

  /** Two byte pairs decode to the same identifier only when they are the same pair. */
  lemma DecodeClientIdInjective(lo: Byte, hi: Byte, lo': Byte, hi': Byte)
    ensures DecodeClientId(lo, hi) == DecodeClientId(lo', hi') <==> lo == lo' && hi == hi'
  {
  }
}

=== FILE: session.dfy ===
/**
 The firmware's `main`: one identity check at start-up, then the endless
 loop. Each loop iteration either serves the client (when polled and
 verified) by asking for commands until the client has none left, or, while
 unverified, tries the identity check again. The poll flag, which the
 firmware sets from a timer (simulated with `rand()`), is an input.
 */
module SessionLoop {
  import opened Bytes
  import opened Keybox
  import opened Protocol
  import opened Dispatch

  datatype Session = Session(verified: bool, kb: State)

  /** The identity exchange on the bus: write `VERIFY_CLIENT_ID`, then read two bytes. */
  function IdentityExchange(): (calls: seq<Call>)
    ensures NoDeviceCalls(calls)
    ensures Writes(calls) == [[VerifyClientId]]
  {
    var ask: seq<Byte> := [VerifyClientId];
    var calls := [BusWrite(ask), BusRead(2)];
    assert calls[1..] == [BusRead(2)] && calls[1..][1..] == [];
    assert Writes([BusRead(2)]) == [];
    assert Writes(calls) == [ask] + Writes(calls[1..]);
    calls
  }

  /** Start-up: the zero-initialised Keybox and one identity check on the bus. */
  function Start(lo: Byte, hi: Byte): (r: Result)
    ensures r.Running? && r.s.kb == Boot() && Valid(r.s.kb) && ActiveInUse(r.s.kb)
    ensures r.s.verified <==> DecodeClientId(lo, hi) == ClientId
    ensures r.calls == IdentityExchange()
  {
    Running(Session(ClientIdMatches(lo, hi), Boot()), IdentityExchange())
  }

  /**
   The first byte of `tx_buff` after a command: a command that replies
   overwrites it with its reply code, one that does not leaves it alone.
   When the command's trace ends with a reply frame, the byte is a reply
   code, so the next prompt is never `ASK_FOR_CMD`.
   */
  function TxAfter(tx: Byte, calls: seq<Call>): (b: Byte)
    ensures |calls| > 0 && calls[|calls| - 1].BusWrite? && |calls[|calls| - 1].bytes| > 0 ==>
              b == calls[|calls| - 1].bytes[0]
    ensures |calls| == 0 || !calls[|calls| - 1].BusWrite? ==> b == tx
    ensures |calls| > 0 && calls[|calls| - 1].BusWrite? && Decode(calls[|calls| - 1].bytes).Some? ==>
              StoreSuccess <= b <= EraseFail && b != AskForCmd
  {
    if |calls| > 0 && calls[|calls| - 1].BusWrite? && |calls[|calls| - 1].bytes| > 0 then
      var code := calls[|calls| - 1].bytes;
      assert Decode(code).Some? ==> StoreSuccess <= code[0] <= EraseFail && code[0] != AskForCmd by {
        if Decode(code).Some? { ReplyCodeIsNotAsk(code); }
      }
      code[0]
    else
      assert |calls| > 0 && calls[|calls| - 1].BusWrite? ==> Decode(calls[|calls| - 1].bytes).None? by {
        if |calls| > 0 && calls[|calls| - 1].BusWrite? && Decode(calls[|calls| - 1].bytes).Some? {
          ReplyCodeIsNotAsk(calls[|calls| - 1].bytes);
        }
      }
      tx
  }

  /**
   After one command, the byte that will prompt for the next is the code of
   the reply just sent, never `ASK_FOR_CMD`; the empty cases leave it as it was.
   */
  lemma PromptAfterStep(kb: State, tx: Byte, w: World)
    requires Valid(kb) && Step(kb, w).Continue?
    ensures DecodeCommand(w.tag).Unimplemented? ==> TxAfter(tx, Step(kb, w).calls) == tx
    ensures !DecodeCommand(w.tag).Unimplemented? ==>
              && TxAfter(tx, Step(kb, w).calls) == Writes(Step(kb, w).calls)[0][0]
              && TxAfter(tx, Step(kb, w).calls) != AskForCmd
  {
    if !DecodeCommand(w.tag).Unimplemented? {
      ReplyCodeIsNotAsk(Writes(Step(kb, w).calls)[0]);
    }
  }

  /**
   The inner `while (spi_write(tx_buff, 1))` loop. `tx_buff[0]` is set to
   `ASK_FOR_CMD` once, before the loop; each pass re-sends whatever `tx_buff[0]`
   holds, so after a command that replied, the prompt is that reply's code.
   `tx` is the byte sent as the next prompt. `batch` holds one `World` per time
   the client answered that it has a command; after them the client answers
   that it has none, and the loop ends.
   */
  function Serve(kb: State, tx: Byte, batch: seq<World>): (o: Outcome)
    requires Valid(kb)
    ensures o.Continue? ==> Valid(o.kb) && (ActiveInUse(kb) ==> ActiveInUse(o.kb))
    ensures |o.calls| > 0 && o.calls[0] == BusWrite([tx])
    decreases |batch|
  {
    var prompt := [BusWrite([tx])];
    if |batch| == 0 then Continue(kb, prompt)
    else
      match Step(kb, batch[0])
      case Crash(c) => Crash(prompt + c)
      case Continue(next, c) =>
        var rest := Serve(next, TxAfter(tx, c), batch[1..]);
        rest.(calls := prompt + c + rest.calls)
  }

  /** Every bus write that is directly followed by the read of a command tag is `ASK_FOR_CMD`. */
  predicate PromptsAsk(calls: seq<Call>)
  {
    forall i :: 0 < i < |calls| && calls[i] == BusRead(1) && calls[i - 1].BusWrite? ==>
      calls[i - 1].bytes == [AskForCmd]
  }

  /**
   After a command that replied, the firmware prompts for the next command
   with that reply's code instead of `ASK_FOR_CMD`, so the trace breaks
   `PromptsAsk` as soon as a second command follows.
   */
  lemma ReplyBecomesNextPrompt(kb: State, tx: Byte, batch: seq<World>)
    requires Valid(kb) && |batch| >= 1
    requires Step(kb, batch[0]).Continue? && !DecodeCommand(batch[0].tag).Unimplemented?
    ensures
      var c := Step(kb, batch[0]).calls;
      var o := Serve(kb, tx, batch);
      && 1 + |c| < |o.calls|
      && o.calls[1 + |c|] == BusWrite([Writes(c)[0][0]])
      && o.calls[1 + |c|] != BusWrite([AskForCmd])
    ensures |batch| >= 2 ==> !PromptsAsk(Serve(kb, tx, batch).calls)
  {
    var first := Step(kb, batch[0]);
    var c := first.calls;
    var code := Writes(c)[0];
    ReplyCodeIsNotAsk(code);
    assert TxAfter(tx, c) == code[0];
    var rest := Serve(first.kb, code[0], batch[1..]);
    var o := Serve(kb, tx, batch);
    assert o.calls == [BusWrite([tx])] + c + rest.calls;
    assert o.calls[1 + |c|] == rest.calls[0];
    if |batch| >= 2 {
      assert Step(first.kb, batch[1]).calls[0] == BusRead(1);
      assert rest.calls[1] == BusRead(1);
      assert o.calls[2 + |c|] == BusRead(1);
    }
  }

  /** Gluing one prompted command onto a well-prompted rest keeps every prompt `ASK_FOR_CMD`. */
  lemma PromptsAskConcat(c: seq<Call>, rest: seq<Call>)
    requires |c| > 0 && c[0] == BusRead(1) && WritesOnlyLast(c)
    requires |rest| == 0 || rest[0].BusWrite?
    requires PromptsAsk(rest)
    ensures PromptsAsk([BusWrite([AskForCmd])] + c + rest)
  {
    var all := [BusWrite([AskForCmd])] + c + rest;
    forall i | 0 < i < |all|
      ensures all[i] == BusRead(1) && all[i - 1].BusWrite? ==> all[i - 1].bytes == [AskForCmd]
    {
      if i > 1 + |c| {
        assert all[i] == rest[i - 1 - |c|] && all[i - 1] == rest[i - 2 - |c|];
      } else if i == 1 + |c| {
        assert all[i] == rest[0];
      } else if i > 1 {
        assert all[i - 1] == c[i - 2];
      }
    }
  }

  /**
   The loop as the protocol intends it: every pass prompts with
   `ASK_FOR_CMD`. Dispatching behaves as in `Serve`.
   */
  function ServeAsking(kb: State, batch: seq<World>): (o: Outcome)
    requires Valid(kb)
    ensures o.Continue? ==> Valid(o.kb) && (ActiveInUse(kb) ==> ActiveInUse(o.kb))
    ensures |o.calls| > 0 && o.calls[0] == BusWrite([AskForCmd])
    ensures PromptsAsk(o.calls)
    decreases |batch|
  {
    var prompt := [BusWrite([AskForCmd])];
    if |batch| == 0 then Continue(kb, prompt)
    else
      match Step(kb, batch[0])
      case Crash(c) =>
        PromptsAskConcat(c, []);
        assert prompt + c + [] == prompt + c;
        Crash(prompt + c)
      case Continue(next, c) =>
        var rest := ServeAsking(next, batch[1..]);
        PromptsAskConcat(c, rest.calls);
        rest.(calls := prompt + c + rest.calls)
  }

  /** A one-byte bus write: how the loop prompts the client. */
  predicate ShortWrite(c: Call)
  {
    c.BusWrite? && |c.bytes| == 1
  }

  /**
   Two traces that make the same calls in the same order, except that a
   one-byte bus write in one may carry a different byte in the other.
   */
  predicate SameButPrompts(a: seq<Call>, b: seq<Call>)
  {
    |a| == |b| && forall i :: 0 <= i < |a| ==> a[i] == b[i] || (ShortWrite(a[i]) && ShortWrite(b[i]))
  }

  lemma SameButPromptsConcat(a1: seq<Call>, b1: seq<Call>, a2: seq<Call>, b2: seq<Call>)
    requires SameButPrompts(a1, b1) && SameButPrompts(a2, b2)
    ensures SameButPrompts(a1 + a2, b1 + b2)
  {
    var a, b := a1 + a2, b1 + b2;
    forall i | 0 <= i < |a|
      ensures a[i] == b[i] || (ShortWrite(a[i]) && ShortWrite(b[i]))
    {
      if i >= |a1| {
        assert a[i] == a2[i - |a1|] && b[i] == b2[i - |a1|];
      } else {
        assert a[i] == a1[i] && b[i] == b1[i];
      }
    }
  }

  /**
   The intended loop dispatches exactly what the firmware's loop dispatches,
   whatever byte the firmware happens to prompt with: both crash on the same
   batches, end with the same Keybox, and make the same calls in the same
   order, differing only in the prompt bytes.
   */
  lemma {:induction false} AskingDispatchesAsServe(kb: State, tx: Byte, batch: seq<World>)
    requires Valid(kb)
    ensures ServeAsking(kb, batch).Crash? <==> Serve(kb, tx, batch).Crash?
    ensures ServeAsking(kb, batch).Continue? ==> ServeAsking(kb, batch).kb == Serve(kb, tx, batch).kb
    ensures SameButPrompts(ServeAsking(kb, batch).calls, Serve(kb, tx, batch).calls)
    decreases |batch|
  {
    var ask, fw := [BusWrite([AskForCmd])], [BusWrite([tx])];
    assert SameButPrompts(ask, fw);
    if |batch| > 0 {
      match Step(kb, batch[0])
      case Crash(c) =>
        assert SameButPrompts(c, c);
        SameButPromptsConcat(ask, fw, c, c);
      case Continue(next, c) =>
        AskingDispatchesAsServe(next, TxAfter(tx, c), batch[1..]);
        assert SameButPrompts(c, c);
        SameButPromptsConcat(ask, fw, c, c);
        var asked := ServeAsking(next, batch[1..]).calls;
        var served := Serve(next, TxAfter(tx, c), batch[1..]).calls;
        SameButPromptsConcat(ask + c, fw + c, asked, served);
        assert ServeAsking(kb, batch).calls == ask + c + asked;
        assert Serve(kb, tx, batch).calls == fw + c + served;
    }
  }

  /**
   The byte the firmware's loop prompts with never changes what it
   dispatches: whether it crashes and the Keybox it ends with.
   */
  lemma ServeKbIgnoresTx(kb: State, tx: Byte, tx': Byte, batch: seq<World>)
    requires Valid(kb)
    ensures Serve(kb, tx, batch).Crash? <==> Serve(kb, tx', batch).Crash?
    ensures Serve(kb, tx, batch).Continue? ==> Serve(kb, tx, batch).kb == Serve(kb, tx', batch).kb
  {
    AskingDispatchesAsServe(kb, tx, batch);
    AskingDispatchesAsServe(kb, tx', batch);
  }

  /** What one loop iteration gets from the outside world. */
  datatype Tick = Tick(poll: bool, idLo: Byte, idHi: Byte, batch: seq<World>)

  /** After a loop iteration: still running, or stopped by a failed `assert`. */
  datatype Result =
    | Running(s: Session, calls: seq<Call>)
    | Halted(calls: seq<Call>)

  /** One iteration of the outer `while (1)` loop. */
  function Iterate(s: Session, t: Tick): (r: Result)
    requires Valid(s.kb)
    ensures r.Running? ==> Valid(r.s.kb) && (ActiveInUse(s.kb) ==> ActiveInUse(r.s.kb))
    ensures !s.verified ==>
              && r.Running? && r.s.kb == s.kb && NoDeviceCalls(r.calls)
              && (r.s.verified <==> t.idLo == 0x34 && t.idHi == 0x12)
    ensures s.verified && r.Running? ==> r.s.verified
    ensures s.verified && !t.poll ==> r.Running? && r.s == s && r.calls == []
    ensures s.verified && t.poll ==> |r.calls| > 0 && r.calls[0] == BusWrite([AskForCmd])
    ensures s.verified && t.poll ==>
              && (r.Halted? <==> Serve(s.kb, AskForCmd, t.batch).Crash?)
              && (r.Running? ==> r.s.kb == Serve(s.kb, AskForCmd, t.batch).kb)
              && r.calls == Serve(s.kb, AskForCmd, t.batch).calls
  {
    if t.poll && s.verified then
      match Serve(s.kb, AskForCmd, t.batch)
      case Crash(c) => Halted(c)
      case Continue(next, c) => Running(Session(true, next), c)
    else if !s.verified then
      Running(Session(ClientIdMatches(t.idLo, t.idHi), s.kb), IdentityExchange())
    else
      Running(s, [])
  }

  /** A run of loop iterations, stopping at the first crash. */
  function Run(s: Session, ticks: seq<Tick>): (r: Result)
    requires Valid(s.kb)
    ensures r.Running? ==> Valid(r.s.kb) && (ActiveInUse(s.kb) ==> ActiveInUse(r.s.kb))
    decreases |ticks|
  {
    if |ticks| == 0 then Running(s, [])
    else
      match Iterate(s, ticks[0])
      case Halted(c) => Halted(c)
      case Running(next, c) =>
        var rest := Run(next, ticks[1..]);
        rest.(calls := c + rest.calls)
  }

  /**
   While the client keeps presenting a wrong identifier, the firmware never
   dispatches a command: the Keybox is untouched and neither the flash nor the
   magstripe is called, however often it is polled.
   */
  lemma {:induction false} UnverifiedNeverDispatches(s: Session, ticks: seq<Tick>)
    requires Valid(s.kb) && !s.verified
    requires forall i :: 0 <= i < |ticks| ==> !ClientIdMatches(ticks[i].idLo, ticks[i].idHi)
    ensures Run(s, ticks).Running? && Run(s, ticks).s == s
    ensures NoDeviceCalls(Run(s, ticks).calls)
  {
    if |ticks| > 0 {
      var first := Iterate(s, ticks[0]);
      assert first.s == s;
      UnverifiedNeverDispatches(s, ticks[1..]);
      var rest := Run(s, ticks[1..]);
      assert Run(s, ticks).calls == first.calls + rest.calls;
    }
  }
}
